=== FILE: README.md ===
# Service exporter liveness tracker: a Dafny model

This project models the core of a Prometheus exporter, `exporter.go`, that
reports on a fixed set of Upstart services. For each service it keeps a record
of the process believed to back it: its PID and its start time (column 21 of
`/proc/<pid>/stat`). On every scrape the exporter first re-verifies a tracked
process: is its stat record still there, with the same start time? If the
service is not tracked, the exporter discovers its process instead. It asks
`service <name> status` for the PID, reads that PID's stat record, and asks
for the PID again. The service counts as running only if both answers name the
same running PID. The exporter then derives CPU self time, CPU time, virtual
size and resident set size from fixed columns of the record, and publishes
them with the uptime. A service that is not running gets sentinel values: PID
and start time -1, zero metrics, uptime -1.

Everything is pure functions over immutable datatypes. The outside world
enters as explicit inputs:

- a status command run (`Status.CommandRun`: failed, or its output);
- a stat file read (`ProcStat.FileRead`: missing, unreadable, or its text);
- the system uptime in ticks;
- the tick rate.

One scrape takes an `Oracle` holding the four answers it may consume. Every
place where the Go code calls `log.Fatalf`, `os.Exit` or `panic` is an explicit
`Fatal` result.

Modules, leaf first:

- `Wrappers`: `Option`.
- `Text`: Go's `strings.Split` on one character, `strings.Join` and `strings.TrimSpace`.
- `Int64`: int64 range and wrap-around.
- `Decimal`: `strconv.ParseInt(s, 10, 64)`, `strconv.Atoi` and `strconv.FormatInt`.
- `ProcStat`: the stat record, its column constants and the metric arithmetic.
- `Status`: the status-output parser.
- `Tracker`: the service record, `reset`, `verifyStillRunning` and `findPID`.
- `Collector`: `scrape`, repeated scrapes, `newSvcCollector`, and the per-service published values.

Three behaviours of the code differ from what its own names and help texts
suggest. The model keeps the code's behaviour in each case, and for the uptime
it also defines the corrected value:

- **CPU columns.** The constants named for utime, stime, cutime and cstime are
  0-based columns 15-18. The proc(5) manual page puts those fields at 13-16, so
  the code's "self time" is really the waited-for children's time, and its
  "CPU time" adds the priority and nice fields. The model keeps the code's
  columns (`ProcStat.UTimeColumn` and its neighbours).
- **Splitting the record.** The record is split on single spaces, so a command
  name containing a space shifts every later field.
  `ProcStat.CommandNameWithSpaceShiftsColumns` proves this.
- **Uptime.** The help text promises seconds, but the code multiplies the
  process age in ticks by the tick rate (see "## Findings").
  `Collector.PublishAsWritten` publishes the uptime as the code computes it.
  `Collector.Publish` publishes the corrected uptime in seconds.
  `Collector.PublishedUptimeScaledBySquare` relates the two.

## Model

| member | source | states |
|---|---|---|
| Text.Split | exporter.go:167 | Splitting on one separator always gives at least one piece, and no piece contains the separator. |
| Text.SplitCount | exporter.go:167-168 | The number of pieces is the number of separators plus one, so "at least 25 fields" means "at least 24 spaces". |
| Text.JoinSplit | exporter.go:167 | Joining the pieces with the separator gives back the original text, so nothing is lost by the split. |
| Text.SplitJoin | exporter.go:167 | Splitting the join of separator-free pieces gives back exactly those pieces. |
| Text.TrimSpace | exporter.go:231 | The trimmed PID word is a slice of the input with only whitespace before and after it, and neither of its ends is whitespace; a word with non-space ends is left unchanged. |
| Text.SplitLast | exporter.go:222 | The last piece of a split is the text after the last separator (all of the text when there is none). |
| Text.TrimTrailing | exporter.go:231 | Trailing whitespace after a word (such as the newline after the PID) is removed and the word is kept. |
| Int64.Wrap | exporter.go:316-317 | An int64 sum is in range, agrees with the true sum modulo 2^64, and equals it when it fits. |
| Int64.WrapAdd | exporter.go:317 | Wrapping an intermediate sum does not change the wrapped total, so a chain of int64 additions is the true sum wrapped once. |
| Decimal.ParseInt64 | exporter.go:232 | A text is accepted exactly when it is an optional sign followed by one or more digits whose signed value fits in int64, and the result is that value. |
| Decimal.ParseIgnoresZeroAndPlus | exporter.go:232 | A leading zero after the sign, or a `+` sign, does not change what a PID word parses to. |
| Decimal.ParseFormat | exporter.go:193 | Every int64 value, printed in decimal, parses back to itself. |
| ProcStat.ReadProcStatData | exporter.go:159-171 | A missing file is "process gone". Any other read error is fatal. A record is accepted exactly when it has at least 24 spaces; the accepted columns contain no space, rejoin to the file text and number at least 25, so every column index used (at most 23) is in bounds. |
| ProcStat.ReadWellFormedRecord | exporter.go:167-171 | A record of at least 25 space-free fields reads back as exactly those fields. |
| ProcStat.CommandNameWithSpaceShiftsColumns | exporter.go:167 | A command name containing a space becomes two columns, and every later field moves one column right: the columns are exactly the fields with the name split in two. So the column read as the start time holds the field written just before it, and the CPU, vsize and rss columns are shifted the same way. |
| ProcStat.Column | exporter.go:309-315 | A metric column is read exactly when it is an optional sign and digits whose value fits in int64, and the result is that value; any other text is the fatal "garbage data" path. |
| ProcStat.Measure | exporter.go:309-319 | The metrics exist exactly when all six metric columns parse as int64. CPU self time is column 15 + column 16 and CPU time is the sum of columns 15-18, each wrapped to int64; vsize and rss are the values of their columns. |
| ProcStat.Accumulate | exporter.go:316-317 | Go's chained int64 additions give CPU self time as the wrapped sum of columns 15 and 16, and CPU time as the wrapped sum of columns 15-18, each wrapped once; vsize and rss are passed through. |
| ProcStat.CpuTimeCoversSelfTime | exporter.go:316-317 | Without overflow, CPU self time = column 15 + column 16 and CPU time = self time + column 17 + column 18, so CPU time >= CPU self time >= 0 for non-negative fields. |
| ProcStat.CpuTimeMonotone | exporter.go:316-317 | If no CPU column decreased between two records, neither derived CPU metric decreases. |
| Status.ParseStatusCases | exporter.go:216-236 | No space before the first comma: fatal. Last word before the first comma is not `start/running`: not running, whatever follows. Otherwise exactly one comma is required (else fatal), and the trimmed last word after it must be an int64 (the PID), else fatal. |
| Status.ParseStatus | exporter.go:216-236 | A PID the parse reports is an int64, and only output with exactly one comma can report one. The outcome for every output is given by Status.ParseStatusCases. |
| Status.AskServiceForPID | exporter.go:203-236 | A status command that cannot run or exits with an error is fatal (the `os.Exit(1)` path); a reported PID comes from its output and is an int64. |
| Status.ParseRunningLine | exporter.go:216-236 | An Upstart line `job start/running, process N` parses back as running with PID N, for any comma-free job name and any int64 N. |
| Status.ParseStoppedLine | exporter.go:216-225 | An Upstart line `job stop/waiting` parses as not running. |
| Tracker.Reset | exporter.go:174-182 | Reset leaves PID and start time -1 and the four metrics 0 (the consistent "not running" state), and keeps the name. |
| Tracker.ResetDeterminedByName | exporter.go:174-182 | The reset state is fully determined by the name, so resetting is idempotent. |
| Tracker.NewService | exporter.go:129-132 | A newly configured service has the given name and is in the reset state. |
| Tracker.VerifyStillRunning | exporter.go:187-202 | Still running exactly when the record is readable and its column 21 equals the stored start time, with the service unchanged. Reset exactly when the record is gone or shows another start time. Every other outcome is fatal. |
| Tracker.FindPID | exporter.go:243-288 | Running exactly when the first answer gives a PID, that PID's record is read with a start time, and the second answer gives the same PID; the service then holds the first PID and column 21. The reset-and-return-not-running outcome happens exactly on a first "not running", a record that is gone, or a second answer that is "not running" or another PID. A first "not running" consults nothing else. |
| Collector.Refresh | exporter.go:290-308 | The process is alive exactly when re-verification sees the same start time or, when discovery is needed, discovery's checks agree. It is not running exactly when discovery is needed and gives up, and the service is then reset. Discovery is needed when the service is untracked, or its record is gone or shows another start time. An alive process comes with the record that was read and the PID and start time it names. |
| Collector.Scrape | exporter.go:290-321 | Not running exactly when discovery was needed and gave up, leaving the service reset. Scraped exactly when the process is alive and its metric columns are integers; the service then keeps its name, has the PID and start time from verification or discovery, and reports exactly the metrics of the record that was read. Everything else is fatal. |
| Collector.StoppedServiceStaysReset | exporter.go:301-306 | A service that is untracked, or whose tracked process died or was replaced, ends reset when the first status answer is "not running". It then publishes start time -1, zero metrics and uptime -1, both as the code computes them and with the corrected uptime. The result does not depend on the discovery read or the second answer. |
| Collector.SameProcessKeepsIdentity | exporter.go:292-300 | A tracked process whose record still shows the stored start time keeps its PID and start time, and its metrics come from that record. |
| Collector.ScrapeKeepsConsistent | exporter.go:290-321 | A non-fatal scrape keeps the record invariant: PID and start time are -1 together, and zero metrics when not running. This assumes the environment never reports PID -1 or start time -1. |
| Collector.Poll | exporter.go:323-330 | Repeated scrapes of one service, with a "not running" result ignored and a fatal one ending the exporter: no cycles leave the service unchanged, no scrape changes its name, and a fatal first scrape ends the run. |
| Collector.StoppedServiceIsIdle | exporter.go:328-330 | Any number of scrapes of a reset service that the status source keeps reporting as not running leave it unchanged and read no record. |
| Collector.SteadyProcessStaysTracked | exporter.go:328-330 | Any number of scrapes of a tracked process that keeps its start time leave its PID and start time unchanged. |
| Collector.NewSvcCollector | exporter.go:128-135 | The collector holds exactly one service per configured name, keyed by that name, each in the reset state. |
| Collector.UptimeAsWritten | exporter.go:368-373 | The uptime as the code computes it; -1 for a service with PID -1. |
| Collector.UptimeMultipliesInsteadOfDividing | exporter.go:372 | For a process 4000 ticks old at 100 ticks per second, the code reports 400000 where 40 seconds is meant. |
| Collector.UptimeSeconds | exporter.go:368-373 | The corrected uptime: -1 for PID -1; otherwise uptime times the tick rate equals the process age in ticks, and it is non-negative for a process that started before now. |
| Collector.PublishAsWritten | exporter.go:337-379 | The published values as the code computes them: the record's start time, CPU, vsize and rss, and the uptime of line 372 (tick-rate multiplied). A reset service publishes start -1, zero CPU and memory, and uptime -1. |
| Collector.Publish | exporter.go:337-379 | The same values with the corrected uptime: uptime times the tick rate is the process age in ticks. A reset service publishes start -1, zero CPU and memory, and uptime -1. |
| Collector.PublishedUptimeScaledBySquare | exporter.go:368-373 | The code's published values and the corrected ones agree except for a running service's uptime, which the code reports scaled by the square of the tick rate. |
| Collector.DiscoveryCommits | exporter.go:243-288 | A not-running service whose status is "running, PID p" on both queries, with a well-formed record, becomes running with PID p, the record's start time and its metrics. |
| Collector.DiscoveryDetectsRace | exporter.go:269-281 | A not-running service whose two status answers name different PIDs stays reset, whatever record was read between them. |
| Collector.AlphaScenario | exporter.go:290-321 | Scenario "alpha", for any comma-free service name: PID 500 twice, start 1000, CPU columns 10 and 5 with no child time. The result is CPU self and total time 15, vsize 4096000 and rss 50. At 5000 ticks and 100 ticks per second the uptime is 40 s, which the code publishes as 400000. |
| Collector.BetaRaceScenario | exporter.go:269-281 | Scenario "beta": the first answer is PID 700, the record is read, and the second answer is PID 900. The race is detected: the service stays reset and publishes only sentinels. |

## Findings

| source | as written | input that shows it | evidently intended | confidence | as-written member | corrected member |
|---|---|---|---|---|---|---|
| exporter.go:372 | the uptime is the process age in ticks multiplied by the tick rate | system uptime 5000 ticks, process start tick 1000, 100 ticks per second: reports 400000 | divide by the tick rate, giving seconds as the metric's help text promises: 40 | high; not executed | Collector.UptimeAsWritten (shown by Collector.UptimeMultipliesInsteadOfDividing) | Collector.UptimeSeconds (used by Collector.Publish; Collector.PublishAsWritten keeps the code's formula) |

## Left out

- Prometheus plumbing is not modelled, because it is library calls and I/O. This covers `Describe`, metric descriptors, the channel sends in `Collect`, the registry and the HTTP server.
- `main` and `printUsage` are not modelled: flag parsing, logging and exit codes.
- Running `service <name> status` is not modelled; its result is the `Status.CommandRun` input. A command that cannot run and one that exits with an error both give `Failed`, which leads to `os.Exit(1)`.
- `ioutil.ReadFile` of `/proc/<pid>/stat` is not modelled; its result is the `ProcStat.FileRead` input. `Missing` stands for an error that satisfies `os.IsNotExist`.
- `getconf CLK_TCK` and the tick-rate parse are not modelled; the tick rate is an input.
- The `/proc/uptime` read and its float parse (`readProcUptimeData`, the system-uptime lines of `Collect`) are not modelled; the system uptime in ticks is an input.
- Float rounding is not modelled. Values are exact integers, and the uptime is an exact real.
- `Collect` iterates over a map in unspecified order, and that order is not modelled. Services are independent, so the model scrapes one service at a time (`Collector.Poll` for repeated scrapes).
- The exporter start-time constant metric (`time.Now()`) is not modelled.
- Log messages are not modelled. All fatal paths are one `Fatal` value, with no message.
- Concurrent `Collect` calls are not modelled. The HTTP handler may run overlapping collections, and `scrape` updates the shared service record without a lock. The model assumes scrapes of one service never overlap, and `Collector.Poll` and the lemmas built on it rely on that.
- A 64-bit platform is assumed: Go's `int` (the PID and the tick rate) is taken to be 64 bits wide, so `strconv.Atoi` accepts exactly the texts `strconv.ParseInt(s, 10, 64)` accepts. On a 32-bit build, PIDs of 2^31 and above would be rejected.
- Strings are sequences of Unicode characters; raw bytes and invalid UTF-8 are not modelled.
- Collector.UptimeSeconds: requires a positive tick rate, because it divides. The code never checks the `getconf` value.
- Collector.Publish: requires a positive tick rate, because it uses the corrected uptime.
- Collector.ScrapeKeepsConsistent: holds only when no status answer names PID -1 and no discovered record has start time -1. The code accepts a signed PID (`strconv.Atoi("-1")` is -1). On Linux the record `/proc/-1/stat` never exists, so the real read for such an answer is "gone" and discovery gives up. The model's discovery read is an independent input, not tied to the PID, so the assumption is stated explicitly.

=== FILE: collector.dfy ===
/** The collector: one scrape of one service (re-verify a tracked process or
    discover a new one, then derive the metrics), repeated scrapes, the initial
    set of services, and the values published per service, including the
    uptime and its "not running" sentinel. */
module Collector {
  import opened Wrappers
  import Int64
  import Text
  import ProcStat
  import Status
  import Tracker

  /** The outside answers one scrape of a service may consume, in order: the
      record read that re-verifies a tracked process, then discovery's first
      status query, record read and second status query. */
  datatype Oracle = Oracle(
    verifyRead: ProcStat.FileRead,
    firstAsk: Status.CommandRun,
    discoveryRead: ProcStat.FileRead,
    secondAsk: Status.CommandRun)

  /** The result of `scrape`: the service is running and its metrics were
      refreshed, it is not running (the error return), or the exporter
      terminates. */
  datatype ScrapeResult = Scraped(svc: Tracker.Service) | NotRunning(svc: Tracker.Service) | Fatal

  /** Scrape has to look for the service's process: it is not tracked, or
      the tracked process is gone or its PID belongs to another process. */
  predicate NeedsDiscovery(s: Tracker.Service, o: Oracle)
  {
    s.pid == Tracker.NoPid || o.verifyRead.Missing? || Tracker.OtherProcess(o.verifyRead, s.startTime)
  }

  /** The first half of `scrape`: a tracked service is re-verified; a service
      that is not tracked, or that re-verification reset, goes through
      discovery. The process is alive exactly when re-verification sees the
      same process or discovery's checks agree; it is not running exactly when
      discovery was needed and gave up, and the service is then reset. */
  function Refresh(s: Tracker.Service, o: Oracle): (p: Tracker.Probe)
    ensures p.Alive? <==>
              || (s.pid != Tracker.NoPid && Tracker.SameProcess(o.verifyRead, s.startTime))
              || (NeedsDiscovery(s, o) && Tracker.ChecksAgree(o.firstAsk, o.discoveryRead, o.secondAsk))
    ensures p.Dead? <==> NeedsDiscovery(s, o) && Tracker.DiscoveryGivesUp(o.firstAsk, o.discoveryRead, o.secondAsk)
    ensures p.Dead? ==> p.svc == Tracker.Reset(s)
    ensures p.Alive? && !NeedsDiscovery(s, o) ==>
              p.svc == s && ProcStat.ReadProcStatData(o.verifyRead) == ProcStat.Record(p.columns)
    ensures p.Alive? && NeedsDiscovery(s, o) ==>
              && ProcStat.ReadProcStatData(o.discoveryRead) == ProcStat.Record(p.columns)
              && p.svc.name == s.name
              && p.svc.pid == Status.AskServiceForPID(o.firstAsk).pid
              && p.svc.startTime == Tracker.StartTime(p.columns).value
  {
    if s.pid != Tracker.NoPid then
      match Tracker.VerifyStillRunning(s, o.verifyRead)
      case Alive(t, columns) => Tracker.Alive(t, columns)
      case Dead(t) => Tracker.FindPID(t, o.firstAsk, o.discoveryRead, o.secondAsk)
      case Fatal => Tracker.Fatal
    else
      Tracker.FindPID(s, o.firstAsk, o.discoveryRead, o.secondAsk)
  }

  /** `scrape`: refresh the service, then store the metrics of the record that
      was read. The scrape reports "not running" exactly when discovery was
      needed and gave up, leaving the service reset; it succeeds exactly when
      the process is alive and its metric columns are integers, and the
      service then keeps its name and reports exactly the metrics of the
      record behind it. Every other outcome is fatal. */
  function Scrape(s: Tracker.Service, o: Oracle): (r: ScrapeResult)
    ensures r.NotRunning? <==> NeedsDiscovery(s, o) && Tracker.DiscoveryGivesUp(o.firstAsk, o.discoveryRead, o.secondAsk)
    ensures r.NotRunning? ==> r.svc == Tracker.Reset(s)
    ensures var p := Refresh(s, o);
            r.Scraped? <==> p.Alive? && ProcStat.MetricColumnsParse(p.columns)
    ensures r.Scraped? ==>
              var p := Refresh(s, o);
              && r.svc.name == s.name
              && r.svc.pid == p.svc.pid && r.svc.startTime == p.svc.startTime
              && Some(ProcStat.Sample(r.svc.cpuSelfTime, r.svc.cpuTime, r.svc.vsize, r.svc.rss))
                 == ProcStat.Measure(p.columns)
  {
    match Refresh(s, o)
    case Fatal => Fatal
    case Dead(t) => NotRunning(t)
    case Alive(t, columns) =>
      match ProcStat.Measure(columns)
      case None => Fatal
      case Some(m) => Scraped(t.(cpuSelfTime := m.cpuSelfTime, cpuTime := m.cpuTime, vsize := m.vsize, rss := m.rss))
  }

  /** A service that is not tracked, or whose tracked process has died or been
      replaced, and whose first status answer is "not running", ends reset and
      publishes the sentinels. Discovery then reads no record and asks nothing
      more: the result does not depend on the discovery read or the second
      answer. */
  lemma StoppedServiceStaysReset(s: Tracker.Service, o: Oracle, systemUptimeTicks: int, ticksPerSecond: int)
    requires s.pid == Tracker.NoPid || Tracker.VerifyStillRunning(s, o.verifyRead).Dead?
    requires Status.AskServiceForPID(o.firstAsk) == Status.NotRunning
    ensures Scrape(s, o) == NotRunning(Tracker.Reset(s))
    ensures PublishAsWritten(Scrape(s, o).svc, systemUptimeTicks, ticksPerSecond) == Published(-1, 0, 0, 0, 0, -1.0)
    ensures ticksPerSecond > 0 ==>
              Publish(Scrape(s, o).svc, systemUptimeTicks, ticksPerSecond) == Published(-1, 0, 0, 0, 0, -1.0)
  {
  }

  /** A tracked process whose record still shows the stored start time keeps
      its PID and start time across the scrape, and its metrics come from that
      record. */
  lemma SameProcessKeepsIdentity(s: Tracker.Service, o: Oracle)
    requires s.pid != Tracker.NoPid
    requires Tracker.SameProcess(o.verifyRead, s.startTime)
    requires ProcStat.MetricColumnsParse(ProcStat.ReadProcStatData(o.verifyRead).columns)
    ensures Scrape(s, o).Scraped?
    ensures Scrape(s, o).svc.pid == s.pid && Scrape(s, o).svc.startTime == s.startTime
    ensures ProcStat.Measure(ProcStat.ReadProcStatData(o.verifyRead).columns)
            == Some(ProcStat.Sample(Scrape(s, o).svc.cpuSelfTime, Scrape(s, o).svc.cpuTime,
                                    Scrape(s, o).svc.vsize, Scrape(s, o).svc.rss))
  {
  }

  /** The outside world reports real processes: a status answer never names
      PID -1, and a record found by discovery never has start time -1. */
  predicate SaneEnvironment(o: Oracle)
  {
    var a := Status.AskServiceForPID(o.firstAsk);
    var rec := ProcStat.ReadProcStatData(o.discoveryRead);
    && (a.Running? ==> a.pid != Tracker.NoPid)
    && (rec.Record? && Tracker.StartTime(rec.columns).Some? ==> Tracker.StartTime(rec.columns).value != Tracker.NoPid)
  }

  /** A scrape keeps the record's invariant: PID and start time are set and
      cleared together, and a service that is not running reports zeros. */
  lemma ScrapeKeepsConsistent(s: Tracker.Service, o: Oracle)
    requires Tracker.Consistent(s)
    requires SaneEnvironment(o)
    requires !Scrape(s, o).Fatal?
    ensures Tracker.Consistent(Scrape(s, o).svc)
  {
    if s.pid != Tracker.NoPid && Tracker.VerifyStillRunning(s, o.verifyRead).Dead? {
      var t := Tracker.Reset(s);
      assert Tracker.FindPID(t, o.firstAsk, o.discoveryRead, o.secondAsk).Alive? ==>
               Tracker.ChecksAgree(o.firstAsk, o.discoveryRead, o.secondAsk);
    }
  }

  /** The Go collector ignores a scrape's "not running" error and goes on, and
      stops only on a fatal error: repeated scrapes of one service, `None`
      when the exporter terminates. No scrape changes the service's name, and
      a fatal first scrape ends the exporter. */
  function Poll(s: Tracker.Service, cycles: seq<Oracle>): (r: Option<Tracker.Service>)
    ensures |cycles| == 0 ==> r == Some(s)
    ensures r.Some? ==> r.value.name == s.name
    ensures |cycles| > 0 && Scrape(s, cycles[0]).Fatal? ==> r.None?
    decreases |cycles|
  {
    if |cycles| == 0 then Some(s)
    else
      match Scrape(s, cycles[0])
      case Fatal => None
      case Scraped(t) => Poll(t, cycles[1..])
      case NotRunning(t) => Poll(t, cycles[1..])
  }

  /** Polling a reset service that the status source keeps reporting as not
      running never changes it and never reads a record. */
  lemma {:induction false} StoppedServiceIsIdle(s: Tracker.Service, cycles: seq<Oracle>)
    requires Tracker.IsReset(s)
    requires forall i :: 0 <= i < |cycles| ==> Status.AskServiceForPID(cycles[i].firstAsk) == Status.NotRunning
    ensures Poll(s, cycles) == Some(s)
    decreases |cycles|
  {
    if |cycles| > 0 {
      // Only the first ensures (the scrape result) is used; the uptime and
      // tick-rate arguments feed the publishing clauses, which are not needed.
      StoppedServiceStaysReset(s, cycles[0], 0, 1);
      Tracker.ResetDeterminedByName(s, s);
      StoppedServiceIsIdle(s, cycles[1..]);
    }
  }

  /** Every record read by re-verification shows the same process, with
      integer metric columns. */
  predicate SteadyProcess(start: int, cycles: seq<Oracle>)
  {
    forall i :: 0 <= i < |cycles| ==>
      && Tracker.SameProcess(cycles[i].verifyRead, start)
      && ProcStat.MetricColumnsParse(ProcStat.ReadProcStatData(cycles[i].verifyRead).columns)
  }

  /** A tracked process that keeps running unchanged stays tracked with the
      same PID and start time, however many scrapes follow. */
  lemma {:induction false} SteadyProcessStaysTracked(s: Tracker.Service, cycles: seq<Oracle>)
    requires s.pid != Tracker.NoPid
    requires SteadyProcess(s.startTime, cycles)
    ensures Poll(s, cycles).Some?
    ensures Poll(s, cycles).value.pid == s.pid && Poll(s, cycles).value.startTime == s.startTime
    decreases |cycles|
  {
    if |cycles| > 0 {
      SameProcessKeepsIdentity(s, cycles[0]);
      var t := Scrape(s, cycles[0]).svc;
      assert SteadyProcess(t.startTime, cycles[1..]) by {
        forall i | 0 <= i < |cycles[1..]|
          ensures Tracker.SameProcess(cycles[1..][i].verifyRead, t.startTime)
          ensures ProcStat.MetricColumnsParse(ProcStat.ReadProcStatData(cycles[1..][i].verifyRead).columns)
        {
          assert cycles[1..][i] == cycles[i + 1];
        }
      }
      SteadyProcessStaysTracked(t, cycles[1..]);
    }
  }

  /** `newSvcCollector`: one service per configured name, each in the reset
      state (a name given twice yields one service). */
  method NewSvcCollector(names: seq<string>) returns (services: map<string, Tracker.Service>)
    ensures services.Keys == set n | n in names
    ensures forall n :: n in services ==> services[n].name == n && Tracker.IsReset(services[n])
  {
    services := map[];
    for i := 0 to |names|
      invariant services.Keys == set n | n in names[..i]
      invariant forall n :: n in services ==> services[n].name == n && Tracker.IsReset(services[n])
    {
      services := services[names[i] := Tracker.NewService(names[i])];
      assert names[..i + 1] == names[..i] + [names[i]];
    }
    assert names[..|names|] == names;
  }

  /** The uptime formula as the collector writes it: -1 when not running,
      otherwise the process's age in ticks MULTIPLIED by the tick rate. */
  function UptimeAsWritten(s: Tracker.Service, systemUptimeTicks: int, ticksPerSecond: int): (u: real)
    ensures s.pid == Tracker.NoPid ==> u == -1.0
  {
    if s.pid == Tracker.NoPid then -1.0
    else Int64.Wrap(systemUptimeTicks - s.startTime) as real * ticksPerSecond as real
  }

  /** The process uptime in seconds: -1 when not running, otherwise the
      process's age in ticks converted to seconds, so that uptime times the
      tick rate is the age in ticks. */
  function UptimeSeconds(s: Tracker.Service, systemUptimeTicks: int, ticksPerSecond: int): (u: real)
    requires ticksPerSecond > 0
    ensures s.pid == Tracker.NoPid ==> u == -1.0
    ensures s.pid != Tracker.NoPid ==> u * ticksPerSecond as real == Int64.Wrap(systemUptimeTicks - s.startTime) as real
    ensures s.pid != Tracker.NoPid && Int64.InRange(systemUptimeTicks - s.startTime) && s.startTime <= systemUptimeTicks ==> u >= 0.0
  {
    if s.pid == Tracker.NoPid then -1.0
    else Int64.Wrap(systemUptimeTicks - s.startTime) as real / ticksPerSecond as real
  }

  /** The values published for one service at the end of a collection. */
  datatype Published = Published(
    processStart: int,
    cpuSelfTime: int,
    cpuTime: int,
    vsize: int,
    rss: int,
    uptimeSeconds: real)

  /** The per-service values `Collect` publishes, as the code computes them:
      the record's start time, CPU times, vsize and rss, and the uptime with
      its -1 sentinel and the multiplying formula. A service that is not
      running publishes the sentinels: start -1, zero CPU and memory, uptime
      -1. */
  function PublishAsWritten(s: Tracker.Service, systemUptimeTicks: int, ticksPerSecond: int): (g: Published)
    ensures Tracker.IsReset(s) ==> g == Published(-1, 0, 0, 0, 0, -1.0)
    ensures g.processStart == s.startTime && g.cpuTime == s.cpuTime && g.cpuSelfTime == s.cpuSelfTime
    ensures g.vsize == s.vsize && g.rss == s.rss
    ensures g.uptimeSeconds == UptimeAsWritten(s, systemUptimeTicks, ticksPerSecond)
  {
    Published(s.startTime, s.cpuSelfTime, s.cpuTime, s.vsize, s.rss, UptimeAsWritten(s, systemUptimeTicks, ticksPerSecond))
  }

  /** The per-service values of `Collect` with the corrected uptime in
      seconds; everything else as the code publishes it. */
  function Publish(s: Tracker.Service, systemUptimeTicks: int, ticksPerSecond: int): (g: Published)
    requires ticksPerSecond > 0
    ensures Tracker.IsReset(s) ==> g == Published(-1, 0, 0, 0, 0, -1.0)
    ensures s.pid != Tracker.NoPid ==> g.uptimeSeconds * ticksPerSecond as real == Int64.Wrap(systemUptimeTicks - s.startTime) as real
    ensures g.processStart == s.startTime && g.cpuTime == s.cpuTime && g.cpuSelfTime == s.cpuSelfTime
    ensures g.vsize == s.vsize && g.rss == s.rss
  {
    Published(s.startTime, s.cpuSelfTime, s.cpuTime, s.vsize, s.rss, UptimeSeconds(s, systemUptimeTicks, ticksPerSecond))
  }

  /** The code's published values and the corrected ones differ only in the
      uptime of a running service, which the code reports scaled by the square
      of the tick rate. */
  lemma PublishedUptimeScaledBySquare(s: Tracker.Service, systemUptimeTicks: int, ticksPerSecond: int)
    requires ticksPerSecond > 0
    ensures var w := PublishAsWritten(s, systemUptimeTicks, ticksPerSecond);
            var g := Publish(s, systemUptimeTicks, ticksPerSecond);
            && w.(uptimeSeconds := 0.0) == g.(uptimeSeconds := 0.0)
            && (s.pid == Tracker.NoPid ==> w.uptimeSeconds == g.uptimeSeconds == -1.0)
            && (s.pid != Tracker.NoPid ==>
                  w.uptimeSeconds == g.uptimeSeconds * (ticksPerSecond * ticksPerSecond) as real)
  {
    var tps := ticksPerSecond as real;
    var age := Int64.Wrap(systemUptimeTicks - s.startTime) as real;
    if s.pid != Tracker.NoPid {
      var u := Publish(s, systemUptimeTicks, ticksPerSecond).uptimeSeconds;
      assert u * tps == age;
      calc {
        u * (ticksPerSecond * ticksPerSecond) as real;
        (u * tps) * tps;
        age * tps;
      }
    }
  }

  /** A process aged 4000 ticks on a 100 ticks-per-second machine has been up
      40 seconds, but the formula as written reports 400000. */
  lemma UptimeMultipliesInsteadOfDividing()
    ensures var s := Tracker.Service("alpha", 500, 1000, 15, 15, 4096000, 50);
            && UptimeAsWritten(s, 5000, 100) == 400000.0
            && UptimeSeconds(s, 5000, 100) == 40.0
  {
  }

  /** A service that is not running, whose status is "running with PID p"
      on both queries, and whose record is well formed with start time
      `start` and metrics `m`, becomes running with PID p, that start time and
      those metrics. */
  lemma DiscoveryCommits(job: string, pid: int, fields: seq<string>, start: int, m: ProcStat.Sample)
    requires ',' !in job && Int64.InRange(pid)
    requires |fields| >= ProcStat.MinFields
    requires forall i :: 0 <= i < |fields| ==> ' ' !in fields[i]
    requires Tracker.StartTime(fields) == Some(start) && ProcStat.Measure(fields) == Some(m)
    ensures var running := Status.Output(Status.RunningLine(job, pid));
            var o := Oracle(ProcStat.Missing, running, ProcStat.Contents(Text.Join(fields, ' ')), running);
            Scrape(Tracker.NewService(job), o)
              == Scraped(Tracker.Service(job, pid, start, m.cpuSelfTime, m.cpuTime, m.vsize, m.rss))
  {
    Status.ParseRunningLine(job, pid);
    ProcStat.ReadWellFormedRecord(fields);
  }

  /** The alpha record's metrics: CPU 10 + 5 with no child time. */
  lemma AlphaMeasure(fields: seq<string>)
    requires |fields| >= ProcStat.MinFields
    requires ProcStat.Column(fields, ProcStat.UTimeColumn) == Some(10)
    requires ProcStat.Column(fields, ProcStat.STimeColumn) == Some(5)
    requires ProcStat.Column(fields, ProcStat.CUTimeColumn) == Some(0)
    requires ProcStat.Column(fields, ProcStat.CSTimeColumn) == Some(0)
    requires ProcStat.Column(fields, ProcStat.VSizeColumn) == Some(4096000)
    requires ProcStat.Column(fields, ProcStat.RssColumn) == Some(50)
    ensures ProcStat.Measure(fields) == Some(ProcStat.Sample(15, 15, 4096000, 50))
  {
    ProcStat.CpuTimeCoversSelfTime(fields);
  }

  /** Scenario "alpha", for a service of any comma-free name: it answers
      running with PID 500 on both queries and its record (any well-formed
      one) has start 1000, CPU columns 10 and 5, no child time, vsize 4096000
      and rss 50. The service becomes running with
      CPU self time and CPU time 15. At 5000 system ticks and 100 ticks per
      second it has been up 40 seconds, which the code publishes as 400000. */
  lemma AlphaScenario(job: string, fields: seq<string>)
    requires ',' !in job
    requires |fields| >= ProcStat.MinFields
    requires forall i :: 0 <= i < |fields| ==> ' ' !in fields[i]
    requires Tracker.StartTime(fields) == Some(1000)
    requires ProcStat.Column(fields, ProcStat.UTimeColumn) == Some(10)
    requires ProcStat.Column(fields, ProcStat.STimeColumn) == Some(5)
    requires ProcStat.Column(fields, ProcStat.CUTimeColumn) == Some(0)
    requires ProcStat.Column(fields, ProcStat.CSTimeColumn) == Some(0)
    requires ProcStat.Column(fields, ProcStat.VSizeColumn) == Some(4096000)
    requires ProcStat.Column(fields, ProcStat.RssColumn) == Some(50)
    ensures var running := Status.Output(Status.RunningLine(job, 500));
            var o := Oracle(ProcStat.Missing, running, ProcStat.Contents(Text.Join(fields, ' ')), running);
            var r := Scrape(Tracker.NewService(job), o);
            && r == Scraped(Tracker.Service(job, 500, 1000, 15, 15, 4096000, 50))
            && Publish(r.svc, 5000, 100) == Published(1000, 15, 15, 4096000, 50, 40.0)
            && PublishAsWritten(r.svc, 5000, 100) == Published(1000, 15, 15, 4096000, 50, 400000.0)
  {
    AlphaMeasure(fields);
    DiscoveryCommits(job, 500, fields, 1000, ProcStat.Sample(15, 15, 4096000, 50));
    AlphaPublishes(job);
  }

  /** What the alpha service publishes: 4000 ticks of age are 40 seconds at
      100 ticks per second, and 400000 as the code computes it. */
  lemma AlphaPublishes(job: string)
    ensures Publish(Tracker.Service(job, 500, 1000, 15, 15, 4096000, 50), 5000, 100)
            == Published(1000, 15, 15, 4096000, 50, 40.0)
    ensures PublishAsWritten(Tracker.Service(job, 500, 1000, 15, 15, 4096000, 50), 5000, 100)
            == Published(1000, 15, 15, 4096000, 50, 400000.0)
  {
    assert Int64.Wrap(5000 - 1000) == 4000;
  }

  /** A service that is not running, whose status names one PID on the first
      query and another on the second, stays reset whatever record was read
      in between: discovery detects the PID change. */
  lemma DiscoveryDetectsRace(job: string, first: int, second: int, read: ProcStat.FileRead)
    requires ',' !in job && Int64.InRange(first) && Int64.InRange(second) && first != second
    requires ProcStat.ReadProcStatData(read).Record?
    ensures var o := Oracle(ProcStat.Missing, Status.Output(Status.RunningLine(job, first)), read,
                            Status.Output(Status.RunningLine(job, second)));
            Scrape(Tracker.NewService(job), o) == NotRunning(Tracker.NewService(job))
  {
    Status.ParseRunningLine(job, first);
    Status.ParseRunningLine(job, second);
    Tracker.ResetDeterminedByName(Tracker.NewService(job), Tracker.NewService(job));
  }

  /** Scenario: "beta" answers PID 700, its record is read, then the status
      query answers PID 900. Discovery detects the race: the service stays
      reset and publishes only sentinels. */
  lemma BetaRaceScenario(read: ProcStat.FileRead)
    requires ProcStat.ReadProcStatData(read).Record?
    ensures var o := Oracle(ProcStat.Missing, Status.Output(Status.RunningLine("beta", 700)), read,
                            Status.Output(Status.RunningLine("beta", 900)));
            var r := Scrape(Tracker.NewService("beta"), o);
            && r == NotRunning(Tracker.NewService("beta"))
            && Publish(r.svc, 5000, 100) == Published(-1, 0, 0, 0, 0, -1.0)
            && PublishAsWritten(r.svc, 5000, 100) == Published(-1, 0, 0, 0, 0, -1.0)
  {
    DiscoveryDetectsRace("beta", 700, 900, read);
  }
}

=== FILE: decimal.dfy ===
/** Decimal integer text as Go's `strconv` reads and writes it:
    `strconv.ParseInt(s, 10, 64)` (and `strconv.Atoi`, which on a 64-bit
    platform accepts exactly the same texts) and its inverse
    `strconv.FormatInt(n, 10)`. */
module Decimal {
  import opened Wrappers
  import Int64

  predicate IsDigit(c: char)
  {
    '0' <= c <= '9'
  }

  predicate AllDigits(s: string)
  {
    forall i :: 0 <= i < |s| ==> IsDigit(s[i])
  }

  function DigitValue(c: char): nat
    requires IsDigit(c)
  {
    c as int - '0' as int
  }

  function DigitChar(d: nat): (c: char)
    requires d < 10
    ensures IsDigit(c) && DigitValue(c) == d
  {
    ('0' as int + d) as char
  }

  /** The number a string of decimal digits denotes (most significant first). */
  function Value(s: string): nat
    requires AllDigits(s)
    decreases |s|
  {
    if |s| == 0 then 0 else Value(s[..|s| - 1]) * 10 + DigitValue(s[|s| - 1])
  }

  /** The digits after an optional leading sign. */
  function Unsigned(s: string): string
  {
    if |s| > 0 && (s[0] == '-' || s[0] == '+') then s[1..] else s
  }

  /** An optional sign followed by one or more decimal digits. */
  predicate IsDecimal(s: string)
  {
    |Unsigned(s)| > 0 && AllDigits(Unsigned(s))
  }

  /** The integer a decimal text denotes, its sign applied. */
  function SignedValue(s: string): int
    requires IsDecimal(s)
  {
    var u: int := Value(Unsigned(s));
    if s[0] == '-' then -u else u
  }

  /** `strconv.ParseInt(s, 10, 64)` / `strconv.Atoi(s)`: an optional `+` or
      `-`, then one or more decimal digits (no underscores, no spaces), whose
      value must fit in int64; anything else is an error (`None`). A text is
      accepted exactly when it is decimal and its value fits, and then the
      result is that value. */
  function ParseInt64(s: string): (r: Option<int>)
    ensures r.Some? <==> IsDecimal(s) && Int64.InRange(SignedValue(s))
    ensures r.Some? ==> r.value == SignedValue(s)
    ensures r.Some? ==> (r.value < 0 <==> s[0] == '-' && Value(Unsigned(s)) > 0)
  {
    if |s| == 0 then None
    else
      var digits := Unsigned(s);
      if |digits| == 0 || !AllDigits(digits) then None
      else
        var u: int := Value(digits);
        if s[0] == '-' then
          (if u <= -Int64.Min then Some(-u) else None)
        else
          (if u <= Int64.Max then Some(u) else None)
  }

  /** The shortest decimal text of a natural number. */
  function FormatNat(n: nat): (s: string)
    ensures |s| > 0 && AllDigits(s)
    ensures Value(s) == n
    decreases n
  {
    if n < 10 then
      var s := [DigitChar(n)];
      assert s[..0] == [];
      s
    else
      var p := FormatNat(n / 10);
      var s := p + [DigitChar(n % 10)];
      assert s[..|s| - 1] == p;
      s
  }

  /** `strconv.FormatInt(n, 10)`: a minus sign for negative numbers, then the
      digits of the magnitude. */
  function FormatInt(n: int): (s: string)
    ensures |s| > 0 && IsDigit(s[|s| - 1])
    ensures forall i :: 0 <= i < |s| ==> IsDigit(s[i]) || (i == 0 && s[i] == '-' && n < 0)
  {
    if n < 0 then "-" + FormatNat(-n) else FormatNat(n)
  }

  /** A leading zero does not change the value of a digit string. */
  lemma {:induction false} ValueLeadingZero(d: string)
    requires AllDigits(d)
    ensures AllDigits("0" + d) && Value("0" + d) == Value(d)
    decreases |d|
  {
    var z := "0" + d;
    if |d| > 0 {
      assert z[..|z| - 1] == "0" + d[..|d| - 1];
      ValueLeadingZero(d[..|d| - 1]);
    }
  }

  /** Leading zeros after the sign, or a `+` sign, do not change what a
      decimal text parses to: the PID word `0042` or `+42` reads as 42. */
  lemma ParseIgnoresZeroAndPlus(d: string)
    requires |d| > 0 && AllDigits(d)
    ensures ParseInt64("0" + d) == ParseInt64(d)
    ensures ParseInt64("-0" + d) == ParseInt64("-" + d)
    ensures ParseInt64("+" + d) == ParseInt64(d)
  {
    ValueLeadingZero(d);
    assert Unsigned("0" + d) == "0" + d;
    assert Unsigned("-0" + d) == "0" + d;
    assert Unsigned("-" + d) == d;
    assert Unsigned("+" + d) == d;
    assert Unsigned(d) == d;
  }

  /** Every int64 value survives printing and parsing back. */
  lemma ParseFormat(n: int)
    requires Int64.InRange(n)
    ensures ParseInt64(FormatInt(n)) == Some(n)
  {
    var s := FormatInt(n);
    if n < 0 {
      assert s[1..] == FormatNat(-n);
    } else {
      assert IsDigit(s[0]);
    }
  }
}

=== FILE: int64.dfy ===
/** Go's `int64` (and `int` on a 64-bit platform): the range of values and the
    two's-complement wrap-around of its addition and subtraction. */
module Int64 {

  const Modulus: int := 0x1_0000_0000_0000_0000
  const Min: int := -0x8000_0000_0000_0000
  const Max: int := 0x7FFF_FFFF_FFFF_FFFF

  predicate InRange(x: int)
  {
    Min <= x <= Max
  }

  /** The int64 value that the mathematical value `x` wraps around to: it is
      in range, agrees with `x` modulo 2^64, and is `x` itself when `x` fits. */
  function Wrap(x: int): (r: int)
    ensures InRange(r)
    ensures (r - x) % Modulus == 0
    ensures InRange(x) ==> r == x
  {
    (x - Min) % Modulus + Min
  }

  /** Wrapping an intermediate result does not change the final wrapped
      value: a chain of int64 additions is the true sum, wrapped once. */
  lemma WrapAdd(x: int, y: int)
    ensures Wrap(Wrap(x) + y) == Wrap(x + y)
  {
    var q := (x - Min) / Modulus;
    assert Wrap(x) == x - q * Modulus;
    assert (x + y - Min - q * Modulus) % Modulus == (x + y - Min) % Modulus;
  }
}

=== FILE: proc_stat.dfy ===
/** The kernel's per-process accounting record, `/proc/<pid>/stat`, as the
    exporter reads it: the record is split on single spaces, must have at least
    25 fields, and six metric columns plus the start time are taken from fixed
    0-based positions. */
module ProcStat {
  import opened Wrappers
  import Text
  import Decimal
  import Int64

  /** Column positions as the exporter numbers them. The start time, vsize and
      rss positions agree with the proc(5) layout; the four CPU positions are
      two places further right than proc(5)'s utime, stime, cutime and cstime
      (13-16), and are kept as the exporter has them. */
  const StartTimeColumn: nat := 21
  const UTimeColumn: nat := 15
  const STimeColumn: nat := 16
  const CUTimeColumn: nat := 17
  const CSTimeColumn: nat := 18
  const VSizeColumn: nat := 22
  const RssColumn: nat := 23

  /** Fewer fields than this is a malformed record. */
  const MinFields: nat := 25

  /** The outcome of reading the record file: it does not exist (the process
      is gone), it could not be read for another reason, or its text. */
  datatype FileRead = Missing | Unreadable | Contents(data: string)

  /** `readProcStatData`: the process is gone, the record's columns, or a
      fatal error that ends the exporter. */
  datatype StatRead = Gone | Record(columns: seq<string>) | Fatal

  /** The record is accepted exactly when the file exists and holds at least
      24 spaces; the accepted columns put back together are the file's text,
      and there are enough of them for every column position used. */
  function ReadProcStatData(f: FileRead): (r: StatRead)
    ensures r.Gone? <==> f.Missing?
    ensures r.Record? <==> f.Contents? && Text.Count(f.data, ' ') >= MinFields - 1
    ensures r.Record? ==> |r.columns| >= MinFields && Text.Join(r.columns, ' ') == f.data
    ensures r.Record? ==> forall i :: 0 <= i < |r.columns| ==> ' ' !in r.columns[i]
  {
    match f
    case Missing => Gone
    case Unreadable => Fatal
    case Contents(data) =>
      var columns := Text.Split(data, ' ');
      Text.SplitCount(data, ' ');
      Text.JoinSplit(data, ' ');
      if |columns| < MinFields then Fatal else Record(columns)
  }

  /** A well-formed record (at least 25 space-free fields) reads back as
      exactly its fields. */
  lemma ReadWellFormedRecord(fields: seq<string>)
    requires |fields| >= MinFields
    requires forall i :: 0 <= i < |fields| ==> ' ' !in fields[i]
    ensures ReadProcStatData(Contents(Text.Join(fields, ' '))) == Record(fields)
  {
    Text.SplitJoin(fields, ' ');
  }

  /** Because the record is split on single spaces, a command name (field 1)
      containing a space becomes two columns and moves every later field one
      place right: the column read as the start time, for instance, is then
      the field the kernel wrote just before it. */
  lemma CommandNameWithSpaceShiftsColumns(fields: seq<string>, a: string, b: string)
    requires |fields| >= MinFields
    requires forall i :: 0 <= i < |fields| ==> ' ' !in fields[i]
    requires ' ' !in a && ' ' !in b
    ensures var r := ReadProcStatData(Contents(Text.Join(fields[1 := a + " " + b], ' ')));
            && r.Record? && r.columns == fields[..1] + [a, b] + fields[2..]
            && |r.columns| == |fields| + 1 && r.columns[StartTimeColumn] == fields[StartTimeColumn - 1]
  {
    var named := fields[1 := a + " " + b];
    var shifted := fields[..1] + [a, b] + fields[2..];
    var tail := Text.Join(fields[2..], ' ');
    assert named[1..][1..] == fields[2..];
    assert shifted[1..][1..][1..] == fields[2..];
    assert Text.Join(shifted[1..][1..], ' ') == b + " " + tail;
    assert Text.Join(shifted[1..], ' ') == a + " " + (b + " " + tail);
    assert Text.Join(named, ' ') == fields[0] + " " + (a + " " + b + " " + tail);
    assert Text.Join(shifted, ' ') == fields[0] + " " + (a + " " + (b + " " + tail));
    assert Text.Join(named, ' ') == Text.Join(shifted, ' ');
    Text.SplitJoin(shifted, ' ');
  }

  /** The metrics one scrape derives from a record. */
  datatype Sample = Sample(cpuSelfTime: int, cpuTime: int, vsize: int, rss: int)

  /** A column read as an int64 (`readInt64`); `None` is the fatal
      "garbage data" path. */
  function Column(columns: seq<string>, index: nat): (r: Option<int>)
    requires index < |columns|
    ensures r.Some? <==> Decimal.IsDecimal(columns[index]) && Int64.InRange(Decimal.SignedValue(columns[index]))
    ensures r.Some? ==> r.value == Decimal.SignedValue(columns[index])
  {
    Decimal.ParseInt64(columns[index])
  }

  /** The six metric columns all hold int64 text. */
  predicate MetricColumnsParse(columns: seq<string>)
    requires |columns| >= MinFields
  {
    && Column(columns, UTimeColumn).Some?
    && Column(columns, STimeColumn).Some?
    && Column(columns, CUTimeColumn).Some?
    && Column(columns, CSTimeColumn).Some?
    && Column(columns, VSizeColumn).Some?
    && Column(columns, RssColumn).Some?
  }

  /** The metric arithmetic of one scrape, with Go's int64 additions: CPU
      self time is columns 15 + 16 and CPU time adds columns 17 + 18, each
      sum wrapped to int64; vsize and rss are their columns. `None` is the
      fatal path taken when any metric column is not an integer. */
  function Measure(columns: seq<string>): (r: Option<Sample>)
    requires |columns| >= MinFields
    ensures r.Some? <==> MetricColumnsParse(columns)
    ensures r.Some? ==>
              var u := Column(columns, UTimeColumn).value;
              var s := Column(columns, STimeColumn).value;
              var cu := Column(columns, CUTimeColumn).value;
              var cs := Column(columns, CSTimeColumn).value;
              && r.value.cpuSelfTime == Int64.Wrap(u + s)
              && r.value.cpuTime == Int64.Wrap(u + s + cu + cs)
    ensures r.Some? ==> Column(columns, VSizeColumn) == Some(r.value.vsize)
    ensures r.Some? ==> Column(columns, RssColumn) == Some(r.value.rss)
  {
    if !MetricColumnsParse(columns) then None
    else
      Some(Accumulate(Column(columns, UTimeColumn).value, Column(columns, STimeColumn).value,
                      Column(columns, CUTimeColumn).value, Column(columns, CSTimeColumn).value,
                      Column(columns, VSizeColumn).value, Column(columns, RssColumn).value))
  }

  /** The sample from the six column values, with Go's int64 additions
      (`utime + stime`, then `+ cutime`, then `+ cstime`): each metric is the
      true sum wrapped once. */
  function Accumulate(utime: int, stime: int, cutime: int, cstime: int, vsize: int, rss: int): (m: Sample)
    ensures m.cpuSelfTime == Int64.Wrap(utime + stime)
    ensures m.cpuTime == Int64.Wrap(utime + stime + cutime + cstime)
    ensures m.vsize == vsize && m.rss == rss
  {
    var self := Int64.Wrap(utime + stime);
    Int64.WrapAdd(utime + stime, cutime);
    Int64.WrapAdd(utime + stime + cutime, cstime);
    Sample(self, Int64.Wrap(Int64.Wrap(self + cutime) + cstime), vsize, rss)
  }

  /** The four CPU columns are non-negative and their sum fits in int64. */
  predicate CpuColumnsSane(columns: seq<string>)
    requires |columns| >= MinFields
    requires MetricColumnsParse(columns)
  {
    var u := Column(columns, UTimeColumn).value;
    var s := Column(columns, STimeColumn).value;
    var cu := Column(columns, CUTimeColumn).value;
    var cs := Column(columns, CSTimeColumn).value;
    0 <= u && 0 <= s && 0 <= cu && 0 <= cs && u + s + cu + cs <= Int64.Max
  }

  /** Without overflow, CPU self time is columns 15 + 16 and CPU time adds
      columns 17 + 18 to it, so CPU time is never below CPU self time. */
  lemma CpuTimeCoversSelfTime(columns: seq<string>)
    requires |columns| >= MinFields
    requires MetricColumnsParse(columns) && CpuColumnsSane(columns)
    ensures var m := Measure(columns).value;
            && m.cpuSelfTime == Column(columns, UTimeColumn).value + Column(columns, STimeColumn).value
            && m.cpuTime == m.cpuSelfTime + Column(columns, CUTimeColumn).value + Column(columns, CSTimeColumn).value
            && m.cpuTime >= m.cpuSelfTime >= 0
  {
  }

  /** Counters that did not go backwards in the record give CPU metrics that
      do not go backwards either. */
  lemma CpuTimeMonotone(before: seq<string>, after: seq<string>)
    requires |before| >= MinFields && |after| >= MinFields
    requires MetricColumnsParse(before) && CpuColumnsSane(before)
    requires MetricColumnsParse(after) && CpuColumnsSane(after)
    requires Column(before, UTimeColumn).value <= Column(after, UTimeColumn).value
    requires Column(before, STimeColumn).value <= Column(after, STimeColumn).value
    requires Column(before, CUTimeColumn).value <= Column(after, CUTimeColumn).value
    requires Column(before, CSTimeColumn).value <= Column(after, CSTimeColumn).value
    ensures Measure(before).value.cpuSelfTime <= Measure(after).value.cpuSelfTime
    ensures Measure(before).value.cpuTime <= Measure(after).value.cpuTime
  {
    CpuTimeCoversSelfTime(before);
    CpuTimeCoversSelfTime(after);
  }
}

=== FILE: status.dfy ===
/** Asking the service manager for a service's process: the output of
    `service <name> status` in Upstart's format, for instance
    `ssh start/running, process 1234`, is read as "running with this PID",
    "not running", or an unparseable answer that ends the exporter. */
module Status {
  import Text
  import Decimal
  import Int64

  /** The Upstart goal/state pair of a running job. */
  const RunningState := "start/running"

  /** The run of the status command: it could not be run or exited with an
      error, or it printed this combined output. */
  datatype CommandRun = Failed | Output(text: string)

  /** What the exporter makes of one status query. */
  datatype Answer = Running(pid: int) | NotRunning | Fatal

  /** The parse of the command's output. The output is cut at commas and the
      first segment at spaces; that segment must have at least two words, and
      its last word decides whether the job is running. A running job's
      output must have exactly two comma segments, and the last space-separated
      word of the second, trimmed, must be an integer: the PID, an int64.
      `ParseStatusCases` states the outcome for every output. */
  function ParseStatus(output: string): (r: Answer)
    ensures r.Running? ==> Int64.InRange(r.pid) && Text.Count(output, ',') == 1
  {
    var segments := Text.Split(output, ',');
    var words := Text.Split(segments[0], ' ');
    if |words| < 2 then Fatal
    else if Text.Last(words) != RunningState then NotRunning
    else if |segments| != 2 then Fatal
    else
      Text.SplitCount(output, ',');
      var pid := Decimal.ParseInt64(Text.TrimSpace(Text.Last(Text.Split(segments[1], ' '))));
      if pid.Some? then Running(pid.value) else Fatal
  }

  /** `askServiceForPID`: a command that cannot be run or exits with an
      error ends the exporter; otherwise its output is parsed, and a PID it
      reports is an int64. */
  function AskServiceForPID(run: CommandRun): (r: Answer)
    ensures run.Failed? ==> r == Fatal
    ensures r.Running? ==> run.Output? && Int64.InRange(r.pid)
  {
    match run
    case Failed => Fatal
    case Output(text) => ParseStatus(text)
  }

  /** The outcome of the parse, stated over the text before the first comma
      (its last word being the text after its last space), the number of
      commas, and the text after the first comma. */
  lemma ParseStatusCases(output: string)
    ensures var head := Text.Before(output, ',');
            ' ' !in head ==> ParseStatus(output) == Fatal
    ensures var head := Text.Before(output, ',');
            ' ' in head && Text.AfterLast(head, ' ') != RunningState ==> ParseStatus(output) == NotRunning
    ensures var head := Text.Before(output, ',');
            ' ' in head && Text.AfterLast(head, ' ') == RunningState && Text.Count(output, ',') != 1 ==>
              ParseStatus(output) == Fatal
    ensures var head := Text.Before(output, ',');
            var pid := Decimal.ParseInt64(Text.TrimSpace(Text.AfterLast(Text.After(output, ','), ' ')));
            ' ' in head && Text.AfterLast(head, ' ') == RunningState && Text.Count(output, ',') == 1 ==>
              ParseStatus(output) == (if pid.Some? then Running(pid.value) else Fatal)
  {
    var head := Text.Before(output, ',');
    Text.SplitFirst(output, ',');
    Text.SplitCount(output, ',');
    Text.SplitCount(head, ' ');
    Text.CountPositive(head, ' ');
    Text.SplitLast(head, ' ');
    if Text.Count(output, ',') == 1 {
      Text.SplitAtSole(output, ',');
      Text.SplitLast(Text.After(output, ','), ' ');
    }
  }

  /** Upstart's status line for a running job. */
  function RunningLine(job: string, pid: int): string
  {
    job + " " + RunningState + ", process " + Decimal.FormatInt(pid) + "\n"
  }

  /** Upstart's status line for a stopped job. */
  function StoppedLine(job: string): string
  {
    job + " stop/waiting\n"
  }

  /** The PID printed in a running job's status line is the PID read back. */
  lemma ParseRunningLine(job: string, pid: int)
    requires ',' !in job
    requires Int64.InRange(pid)
    ensures ParseStatus(RunningLine(job, pid)) == Running(pid)
  {
    RunningLinePieces(job, pid);
    Decimal.ParseFormat(pid);
  }

  /** How a running job's status line falls apart under the parse. */
  lemma RunningLinePieces(job: string, pid: int)
    requires ',' !in job
    ensures var segments := Text.Split(RunningLine(job, pid), ',');
            && |segments| == 2
            && |Text.Split(segments[0], ' ')| >= 2
            && Text.Last(Text.Split(segments[0], ' ')) == RunningState
            && Text.TrimSpace(Text.Last(Text.Split(segments[1], ' '))) == Decimal.FormatInt(pid)
  {
    var digits := Decimal.FormatInt(pid);
    var head := job + " " + RunningState;
    var tail := " process" + [' '] + (digits + "\n");
    RunningLineShape(job, digits);
    DigitsAreWord(pid);
    CommaSegments(head, tail);
    HeadWords(job);
    Text.SplitLastPiece(" process", digits + "\n", ' ');
    Text.TrimTrailing(digits, "\n");
  }

  /** The running line as the text before its comma, the comma, and the
      text after it. */
  lemma RunningLineShape(job: string, digits: string)
    ensures job + " " + RunningState + ", process " + digits + "\n"
            == (job + " " + RunningState) + [','] + (" process" + [' '] + (digits + "\n"))
  {
  }

  /** A printed PID has no comma, no space, and non-space ends. */
  lemma DigitsAreWord(pid: int)
    ensures var digits := Decimal.FormatInt(pid);
            && ',' !in digits + "\n" && ' ' !in digits + "\n"
            && !Text.IsSpace(digits[0]) && !Text.IsSpace(digits[|digits| - 1])
  {
  }

  /** Comma-free text on either side of one comma splits into those two. */
  lemma CommaSegments(head: string, tail: string)
    requires ',' !in head && ',' !in tail
    ensures Text.Split(head + [','] + tail, ',') == [head, tail]
  {
    Text.SplitConcat(head, tail, ',');
    Text.SplitNoSeparator(head, ',');
    Text.SplitNoSeparator(tail, ',');
  }

  /** The head of a running line has at least two words, the last being
      `start/running`. */
  lemma HeadWords(job: string)
    ensures var words := Text.Split(job + " " + RunningState, ' ');
            |words| >= 2 && Text.Last(words) == RunningState
  {
    assert job + " " + RunningState == job + [' '] + RunningState;
    assert ' ' !in RunningState;
    Text.SplitLastPiece(job, RunningState, ' ');
  }

  /** A stopped job's status line reads as not running. */
  lemma ParseStoppedLine(job: string)
    requires ',' !in job
    ensures ParseStatus(StoppedLine(job)) == NotRunning
  {
    var state := "stop/waiting\n";
    var line := StoppedLine(job);
    assert line == job + [' '] + state;
    assert ',' !in state && ' ' !in state && state != RunningState;
    assert ',' !in line;
    Text.SplitNoSeparator(line, ',');
    Text.SplitLastPiece(job, state, ' ');
  }
}

=== FILE: text.dfy ===
/** The string operations the exporter relies on, as Go defines them:
    `strings.Split` with a one-character separator, its inverse `strings.Join`,
    and `strings.TrimSpace`. Strings are sequences of Unicode scalar values;
    byte-level UTF-8 handling is not modelled. */
module Text {

  /** Number of occurrences of `c` in `s`. */
  function Count(s: string, c: char): nat
    decreases |s|
  {
    if |s| == 0 then 0 else (if s[0] == c then 1 else 0) + Count(s[1..], c)
  }

  /** `strings.Split(s, string(sep))`: the pieces between consecutive
      separators. There is always at least one piece (`Split("", sep)` is
      `[""]`), and no piece contains the separator. */
  function Split(s: string, sep: char): (parts: seq<string>)
    ensures |parts| >= 1
    ensures forall i :: 0 <= i < |parts| ==> sep !in parts[i]
    decreases |s|
  {
    if |s| == 0 then [""]
    else
      var rest := Split(s[1..], sep);
      if s[0] == sep then [""] + rest
      else [[s[0]] + rest[0]] + rest[1..]
  }

  /** `strings.Join(parts, string(sep))`. */
  function Join(parts: seq<string>, sep: char): string
    requires |parts| >= 1
    decreases |parts|
  {
    if |parts| == 1 then parts[0] else parts[0] + [sep] + Join(parts[1..], sep)
  }

  function Last<T>(xs: seq<T>): T
    requires |xs| >= 1
  {
    xs[|xs| - 1]
  }

  /** The text before the first `c` (all of `s` when `c` does not occur). */
  function Before(s: string, c: char): string
    decreases |s|
  {
    if |s| == 0 || s[0] == c then "" else [s[0]] + Before(s[1..], c)
  }

  /** The text after the first `c` (empty when `c` does not occur). */
  function After(s: string, c: char): string
    decreases |s|
  {
    if |s| == 0 then "" else if s[0] == c then s[1..] else After(s[1..], c)
  }

  /** The text after the last `c` (all of `s` when `c` does not occur). */
  function AfterLast(s: string, c: char): string
    decreases |s|
  {
    if |s| == 0 || s[|s| - 1] == c then "" else AfterLast(s[..|s| - 1], c) + [s[|s| - 1]]
  }

  lemma {:induction false} CountPositive(s: string, c: char)
    ensures Count(s, c) > 0 <==> c in s
    decreases |s|
  {
    if |s| > 0 {
      CountPositive(s[1..], c);
      assert s == [s[0]] + s[1..];
    }
  }

  /** Split produces one more piece than there are separators. */
  lemma {:induction false} SplitCount(s: string, sep: char)
    ensures |Split(s, sep)| == Count(s, sep) + 1
    decreases |s|
  {
    if |s| > 0 {
      SplitCount(s[1..], sep);
    }
  }

  /** Splitting a text that has no separator gives the text itself. */
  lemma {:induction false} SplitNoSeparator(s: string, sep: char)
    requires sep !in s
    ensures Split(s, sep) == [s]
    decreases |s|
  {
    if |s| > 0 {
      assert forall i :: 0 <= i < |s[1..]| ==> s[1..][i] == s[i + 1];
      SplitNoSeparator(s[1..], sep);
      assert [s[0]] + s[1..] == s;
    }
  }

  /** A separator placed between two texts separates their pieces. */
  lemma {:induction false} SplitConcat(a: string, b: string, sep: char)
    ensures Split(a + [sep] + b, sep) == Split(a, sep) + Split(b, sep)
    decreases |a|
  {
    var s := a + [sep] + b;
    if |a| == 0 {
      assert s[1..] == b;
    } else {
      assert s[1..] == a[1..] + [sep] + b;
      SplitConcat(a[1..], b, sep);
    }
  }

  /** A piece after the last separator is the last piece of the split. */
  lemma SplitLastPiece(a: string, w: string, sep: char)
    requires sep !in w
    ensures var parts := Split(a + [sep] + w, sep);
            |parts| >= 2 && Last(parts) == w
  {
    SplitConcat(a, w, sep);
    SplitNoSeparator(w, sep);
  }

  /** Joining the pieces of a split gives back the text. */
  lemma {:induction false} JoinSplit(s: string, sep: char)
    ensures Join(Split(s, sep), sep) == s
    decreases |s|
  {
    if |s| > 0 {
      var rest := Split(s[1..], sep);
      JoinSplit(s[1..], sep);
      if s[0] == sep {
        assert ([""] + rest)[1..] == rest;
      } else {
        var parts := [[s[0]] + rest[0]] + rest[1..];
        if |rest| == 1 {
          assert Join(parts, sep) == [s[0]] + rest[0];
        } else {
          assert parts[1..] == rest[1..];
          assert Join(rest, sep) == rest[0] + [sep] + Join(rest[1..], sep);
        }
        assert s == [s[0]] + s[1..];
      }
    }
  }

  /** Splitting the join of separator-free pieces gives back the pieces. */
  lemma {:induction false} SplitJoin(parts: seq<string>, sep: char)
    requires |parts| >= 1
    requires forall i :: 0 <= i < |parts| ==> sep !in parts[i]
    ensures Split(Join(parts, sep), sep) == parts
    decreases |parts|
  {
    SplitNoSeparator(parts[0], sep);
    if |parts| > 1 {
      SplitJoin(parts[1..], sep);
      SplitConcat(parts[0], Join(parts[1..], sep), sep);
      assert [parts[0]] + parts[1..] == parts;
    }
  }

  /** The first piece of a split is the text before the first separator. */
  lemma {:induction false} SplitFirst(s: string, sep: char)
    ensures Split(s, sep)[0] == Before(s, sep)
    decreases |s|
  {
    if |s| > 0 {
      SplitFirst(s[1..], sep);
    }
  }

  /** With exactly one separator, the split is the text before and after it. */
  lemma {:induction false} SplitAtSole(s: string, sep: char)
    requires Count(s, sep) == 1
    ensures Split(s, sep) == [Before(s, sep), After(s, sep)]
    decreases |s|
  {
    SplitCount(s, sep);
    SplitFirst(s, sep);
    var parts := Split(s, sep);
    if s[0] == sep {
      CountPositive(s[1..], sep);
      SplitNoSeparator(s[1..], sep);
    } else {
      SplitAtSole(s[1..], sep);
    }
  }

  lemma {:induction false} AfterLastWhole(s: string, c: char)
    requires c !in s
    ensures AfterLast(s, c) == s
    decreases |s|
  {
    if |s| > 0 {
      AfterLastWhole(s[..|s| - 1], c);
    }
  }

  /** AfterLast, read from the front. */
  lemma {:induction false} AfterLastCons(x: char, t: string, c: char)
    ensures AfterLast([x] + t, c) == (if c in t then AfterLast(t, c) else if x == c then t else [x] + t)
    decreases |t|
  {
    var s := [x] + t;
    if |t| == 0 {
      assert s[..0] == [];
    } else {
      var y := t[|t| - 1];
      var t' := t[..|t| - 1];
      assert t == t' + [y];
      assert s[|s| - 1] == y;
      assert s[..|s| - 1] == [x] + t';
      if y == c {
        assert AfterLast(s, c) == "";
        assert c in t;
        assert AfterLast(t, c) == "";
      } else {
        AfterLastCons(x, t', c);
        assert AfterLast(s, c) == AfterLast([x] + t', c) + [y];
        assert AfterLast(t, c) == AfterLast(t', c) + [y];
        assert c in t <==> c in t';
        if c in t' {
        } else if x == c {
          assert AfterLast([x] + t', c) == t';
        } else {
          assert AfterLast([x] + t', c) == [x] + t';
          assert [x] + t' + [y] == [x] + t;
        }
      }
    }
  }

  /** A split has a single piece exactly when the separator does not occur. */
  lemma SplitSingle(s: string, sep: char)
    ensures |Split(s, sep)| == 1 <==> sep !in s
  {
    SplitCount(s, sep);
    CountPositive(s, sep);
  }

  /** One step of Split: the pieces of a text that starts with `x`. */
  lemma SplitCons(x: char, t: string, sep: char)
    ensures var rest := Split(t, sep);
            Split([x] + t, sep) == if x == sep then [""] + rest else [[x] + rest[0]] + rest[1..]
  {
    assert ([x] + t)[1..] == t;
  }

  /** The last piece of a split is the text after the last separator. */
  lemma {:induction false} SplitLast(s: string, sep: char)
    ensures Last(Split(s, sep)) == AfterLast(s, sep)
    decreases |s|
  {
    if |s| == 0 {
      assert Split(s, sep) == [""];
    } else {
      var x, t := s[0], s[1..];
      assert s == [x] + t;
      var rest := Split(t, sep);
      SplitCons(x, t, sep);
      SplitLast(t, sep);
      AfterLastCons(x, t, sep);
      SplitSingle(t, sep);
      if sep !in t {
        SplitNoSeparator(t, sep);
        AfterLastWhole(t, sep);
      }
    }
  }

  /** Whitespace as Go's `unicode.IsSpace` defines it. */
  predicate IsSpace(c: char)
  {
    || c == '\t' || c == '\n' || c == '\U{000B}' || c == '\U{000C}' || c == '\r' || c == ' '
    || c == '\U{0085}' || c == '\U{00A0}' || c == '\U{1680}'
    || ('\U{2000}' <= c <= '\U{200A}')
    || c == '\U{2028}' || c == '\U{2029}' || c == '\U{202F}' || c == '\U{205F}' || c == '\U{3000}'
  }

  /** Drops leading whitespace: the result is the suffix that starts at the
      first non-space character. */
  function TrimLeft(s: string): (r: string)
    ensures |r| <= |s| && r == s[|s| - |r|..]
    ensures forall i :: 0 <= i < |s| - |r| ==> IsSpace(s[i])
    ensures |r| == 0 || !IsSpace(r[0])
    decreases |s|
  {
    if |s| > 0 && IsSpace(s[0]) then TrimLeft(s[1..]) else s
  }

  /** Drops trailing whitespace: the result is the prefix that ends at the
      last non-space character. */
  function TrimRight(s: string): (r: string)
    ensures |r| <= |s| && r == s[..|r|]
    ensures forall i :: |r| <= i < |s| ==> IsSpace(s[i])
    ensures |r| == 0 || !IsSpace(r[|r| - 1])
    decreases |s|
  {
    if |s| > 0 && IsSpace(s[|s| - 1]) then TrimRight(s[..|s| - 1]) else s
  }

  /** `s` is `r` at offset `i` with only whitespace before and after it. */
  predicate Padded(s: string, r: string, i: int)
  {
    && 0 <= i <= |s| - |r| && r == s[i..i + |r|]
    && (forall k :: 0 <= k < i ==> IsSpace(s[k]))
    && (forall k :: i + |r| <= k < |s| ==> IsSpace(s[k]))
  }

  /** `strings.TrimSpace`: the input with the whitespace around it removed.
      The result is a slice of the input with only whitespace before and
      after it, neither end of the result is whitespace, and a text that
      already has non-space ends is returned unchanged. */
  function TrimSpace(s: string): (r: string)
    ensures exists i :: Padded(s, r, i)
    ensures |r| == 0 || (!IsSpace(r[0]) && !IsSpace(r[|r| - 1]))
    ensures |s| > 0 && !IsSpace(s[0]) && !IsSpace(s[|s| - 1]) ==> r == s
  {
    var t := TrimLeft(s);
    var r := TrimRight(t);
    PaddedSlice(s, t, r, |s| - |t|);
    assert |t| == 0 || !IsSpace(t[0]);
    r
  }

  /** A prefix of a suffix of `s`, where the parts of `s` cut off on either
      side are whitespace, sits in `s` with only whitespace around it. */
  lemma PaddedSlice(s: string, t: string, r: string, i: nat)
    requires i <= |s| && t == s[i..] && |r| <= |t| && r == t[..|r|]
    requires forall k :: 0 <= k < i ==> IsSpace(s[k])
    requires forall k :: |r| <= k < |t| ==> IsSpace(t[k])
    ensures Padded(s, r, i)
  {
    forall k | i + |r| <= k < |s|
      ensures IsSpace(s[k])
    {
      assert s[k] == t[k - i];
    }
  }

  /** Trailing whitespace after a text with non-space ends is trimmed off. */
  lemma {:induction false} TrimTrailing(s: string, w: string)
    requires |s| > 0 && !IsSpace(s[0]) && !IsSpace(s[|s| - 1])
    requires forall i :: 0 <= i < |w| ==> IsSpace(w[i])
    ensures TrimSpace(s + w) == s
    decreases |w|
  {
    if |w| > 0 {
      var w' := w[..|w| - 1];
      TrimTrailing(s, w');
      assert (s + w)[..|s + w| - 1] == s + w';
    }
  }
}

=== FILE: tracker.dfy ===
/** One monitored service: the record the exporter keeps for it, the reset to
    "not running", re-verification of a tracked process, and discovery of a
    new one with a status query on each side of the record read. */
module Tracker {
  import opened Wrappers
  import ProcStat
  import Status

  /** The "not running" value of both the PID and the start time. */
  const NoPid: int := -1

  /** The exporter's `service` record: the name, the identity of the tracked
      process (PID and start time, constant while it runs), and the metrics of
      the latest scrape. */
  datatype Service = Service(
    name: string,
    pid: int,
    startTime: int,
    cpuSelfTime: int,
    cpuTime: int,
    vsize: int,
    rss: int)

  /** The "not running" state. */
  predicate IsReset(s: Service)
  {
    && s.pid == NoPid && s.startTime == NoPid
    && s.cpuSelfTime == 0 && s.cpuTime == 0 && s.vsize == 0 && s.rss == 0
  }

  /** The record's invariant: the PID and the start time are set or cleared
      together, and a service that is not running reports zero metrics. */
  predicate Consistent(s: Service)
  {
    && (s.pid == NoPid <==> s.startTime == NoPid)
    && (s.pid == NoPid ==> IsReset(s))
  }

  /** `reset`: forgets the process and its metrics, keeps the name. */
  function Reset(s: Service): (r: Service)
    ensures IsReset(r) && Consistent(r)
    ensures r.name == s.name
  {
    s.(pid := NoPid, startTime := NoPid, cpuSelfTime := 0, cpuTime := 0, vsize := 0, rss := 0)
  }

  /** The record for a newly configured service: a zero-valued record with
      the name, then reset. */
  function NewService(name: string): (r: Service)
    ensures IsReset(r) && r.name == name
  {
    Reset(Service(name, 0, 0, 0, 0, 0, 0))
  }

  /** The reset state of a service is unique: resetting forgets everything
      but the name, so resetting twice is resetting once. */
  lemma ResetDeterminedByName(s: Service, t: Service)
    requires IsReset(t) && t.name == s.name
    ensures Reset(s) == t && Reset(t) == t
  {
  }

  /** The outcome of checking on, or looking for, a service's process: it is
      alive (with the record that was read), it is not running (and the service
      has been reset), or the exporter terminates. */
  datatype Probe = Alive(svc: Service, columns: seq<string>) | Dead(svc: Service) | Fatal

  /** The start time column of an accepted record, read as an int64. */
  function StartTime(columns: seq<string>): Option<int>
    requires |columns| >= ProcStat.MinFields
  {
    ProcStat.Column(columns, ProcStat.StartTimeColumn)
  }

  /** The record read for a PID and its start time agree with `start`. */
  predicate SameProcess(read: ProcStat.FileRead, start: int)
  {
    var rec := ProcStat.ReadProcStatData(read);
    rec.Record? && StartTime(rec.columns) == Some(start)
  }

  /** The record read for a PID shows a process that started at some other time. */
  predicate OtherProcess(read: ProcStat.FileRead, start: int)
  {
    var rec := ProcStat.ReadProcStatData(read);
    rec.Record? && StartTime(rec.columns).Some? && StartTime(rec.columns).value != start
  }

  /** `verifyStillRunning`: the tracked process is still the one we saw when
      its record can be read and its start time is the stored one. If the
      process is gone or its PID now belongs to a process with another start
      time, the service is reset; otherwise nothing about it changes. */
  function VerifyStillRunning(s: Service, read: ProcStat.FileRead): (r: Probe)
    ensures r.Alive? <==> SameProcess(read, s.startTime)
    ensures r.Dead? <==> read.Missing? || OtherProcess(read, s.startTime)
    ensures r.Alive? ==> r.svc == s && ProcStat.ReadProcStatData(read) == ProcStat.Record(r.columns)
    ensures r.Dead? ==> r.svc == Reset(s)
  {
    match ProcStat.ReadProcStatData(read)
    case Gone => Dead(Reset(s))
    case Fatal => Fatal
    case Record(columns) =>
      var start := StartTime(columns);
      if start.None? then Fatal
      else if start.value != s.startTime then Dead(Reset(s))
      else Alive(s, columns)
  }

  /** Discovery's three checks agree: the first status query reports a PID,
      that PID's record can be read and has a start time, and the second
      status query reports the same PID. */
  predicate ChecksAgree(first: Status.CommandRun, read: ProcStat.FileRead, second: Status.CommandRun)
  {
    var a1 := Status.AskServiceForPID(first);
    var a2 := Status.AskServiceForPID(second);
    var rec := ProcStat.ReadProcStatData(read);
    && a1.Running? && rec.Record? && a2.Running?
    && a2.pid == a1.pid
    && StartTime(rec.columns).Some?
  }

  /** Discovery gives up without a fault: the first query says not running;
      or it gives a PID whose record is gone; or the record is read and the
      second query says not running or names another PID. */
  predicate DiscoveryGivesUp(first: Status.CommandRun, read: ProcStat.FileRead, second: Status.CommandRun)
  {
    var a1 := Status.AskServiceForPID(first);
    var a2 := Status.AskServiceForPID(second);
    var rec := ProcStat.ReadProcStatData(read);
    || a1.NotRunning?
    || (a1.Running? && rec.Gone?)
    || (a1.Running? && rec.Record? && (a2.NotRunning? || (a2.Running? && a2.pid != a1.pid)))
  }

  /** `findPID`: ask for the PID, read that process's record, ask again. The
      service becomes running only when all three agree, with the first
      answer's PID and the record's start time; every other non-fatal path
      leaves it reset. When the first answer is "not running" the outcome does
      not depend on the record or the second answer: neither is consulted. */
  function FindPID(s: Service, first: Status.CommandRun, read: ProcStat.FileRead, second: Status.CommandRun): (r: Probe)
    ensures r.Alive? <==> ChecksAgree(first, read, second)
    ensures r.Dead? <==> DiscoveryGivesUp(first, read, second)
    ensures r.Alive? ==>
              && ProcStat.ReadProcStatData(read) == ProcStat.Record(r.columns)
              && r.svc == s.(pid := Status.AskServiceForPID(first).pid, startTime := StartTime(r.columns).value)
    ensures r.Dead? ==> r.svc == Reset(s)
    ensures Status.AskServiceForPID(first).NotRunning? ==> r == Dead(Reset(s))
  {
    match Status.AskServiceForPID(first)
    case Fatal => Fatal
    case NotRunning => Dead(Reset(s))
    case Running(pid) =>
      var claimed := s.(pid := pid);
      match ProcStat.ReadProcStatData(read)
      case Gone => Dead(Reset(claimed))
      case Fatal => Fatal
      case Record(columns) =>
        match Status.AskServiceForPID(second)
        case Fatal => Fatal
        case NotRunning => Dead(Reset(claimed))
        case Running(recheck) =>
          if recheck != pid then Dead(Reset(claimed))
          else
            var start := StartTime(columns);
            if start.None? then Fatal
            else Alive(claimed.(startTime := start.value), columns)
  }
}

=== FILE: wrappers.dfy ===
/** The optional value used wherever the exporter's Go code returns a value
    together with an `error` that the caller only tests for nil. */
module Wrappers {

  datatype Option<+T> = None | Some(value: T)
}
